=== FILE: README.md ===
# StatWiz data cleaning, modelled in Dafny

StatWiz is a Streamlit app. It reads a CSV file into a pandas data frame and,
before producing its second profiling report, cleans the frame in place
(`App.py`, lines 44–66). This project models that cleaning block:

1. `df.drop_duplicates()` keeps the first of every group of equal rows.
2. Each column's missing percentage is computed once, on the deduplicated
   frame, as pandas computes it: a real number, or NaN on a frame with no rows.
3. The columns are walked in order:
   - a column more than 30% missing is dropped;
   - an `object` column is filled with its most frequent value;
   - any other column is first robust-scaled, then filled with the median
     when the outlier detector reports outliers and with the mean otherwise.

Modules:

- `Frames` (`frames.dfy`): the table model. A frame is labelled columns of
  optional cells, where a missing cell stands for NaN. The module also holds
  missing-cell counts and pandas' label-based lookup, drop and assignment.
- `Dedup` (`dedup.dfy`): `drop_duplicates`.
- `Impute` (`impute.dfy`): the most-frequent imputer with sklearn's tie-break,
  and the scale-then-impute numeric branch. The arithmetic sits behind
  abstract functions in a `Toolkit`.
- `Cleaning` (`cleaning.dfy`): the drop test and the imputer choice.
  - `RunLoop` is the loop as written: it mutates one frame and looks each
    column up by its label.
  - `CleanColumns` is a column-wise reference.
  - The two are proved equal (`LoopIsColumnWise`), and the properties of the
    whole block are proved through that equality.
- `Scenarios` (`scenarios.dfy`): the cleaned frame can hold repeated rows.

The cell type `V` is abstract. The pieces of code outside this model are
parameters of `Toolkit`:

- the outlier detector `mm.detect_outliers_iqr`;
- the fitted `RobustScaler`;
- the median and the mean;
- the order sklearn uses to break ties between equally frequent values;
- which values are finite, since the scaler's input check refuses infinity.

The model follows the code, including where its comments or a first reading
suggest otherwise:

- Numeric columns are scaled first, and the median or mean is taken over
  the already scaled values. Filling does not come before scaling.
- Ties for the most frequent value go to the smallest value (sklearn's
  rule), not to the first one seen.
- A frame with columns but no rows is not left unchanged. sklearn refuses
  zero samples, so the block raises (`CleanSucceeds`).
- A kept numeric column holding an infinite value makes `RobustScaler` raise,
  and the block fails with it (`Impute.ScaleThenImpute`, `CleanSucceeds`).
- The cleaned frame is not free of duplicate rows. Deduplication runs
  before columns are dropped and filled, so rows that differed only in
  dropped columns come out equal (`Scenarios.AgreeOnKeptGivesEqualRows`,
  with a concrete frame in `Scenarios.RepeatingRepeatsAfterCleaning`).

## Model

| member | source | states |
|---|---|---|
| Frames.NullCount | App.py:47 | the per-column `isna().sum()`: at most the column length; zero exactly when no cell is missing; the full length exactly when every cell is missing |
| Frames.NullCountIsMissingCells | App.py:47 | `isna().sum()` is exactly the number of missing cells: the multiplicity of the missing value among the cells |
| Frames.Lookup | App.py:53 | `df[key]` yields a column carrying that label; with distinct labels it is the one column that does |
| Frames.DropColumnLabels | App.py:51 | `df.drop(key, axis=1)` (`DropColumn`) removes that label and keeps every other label |
| Frames.DropColumnDistinct | App.py:51 | dropping a label keeps the remaining labels distinct |
| Frames.DropColumnSplits | App.py:51 | with distinct labels, dropping column `i` leaves exactly the columns before and after it, in order |
| Frames.SetCells | App.py:61-66 | `df[key] = ...` keeps every label at its position |
| Frames.SetCellsLookup | App.py:61-66 | after `df[key] = cells`, reading `key` gives the new cells under the column's old dtype, reading any other label gives what it gave before, and labels stay distinct exactly when they were |
| Dedup.DropDuplicates | App.py:44 | deduplication keeps the labels, dtypes and rectangular shape and never adds rows |
| Dedup.DropDuplicatesKeepsFirstsInOrder | App.py:44 | every kept row is the first occurrence of its value in the input; kept rows appear in input order |
| Dedup.DropDuplicatesRowsDistinct | App.py:44 | after deduplication no two rows are equal |
| Dedup.DropDuplicatesKeepsEveryRowValue | App.py:44 | every input row value still occurs in the deduplicated frame |
| Dedup.DropDuplicatesOfDistinct | App.py:44 | a frame whose rows are already distinct is unchanged |
| Dedup.DropDuplicatesIdempotent | App.py:44 | deduplicating twice equals deduplicating once |
| Dedup.DropDuplicatesKeepsSomeRow | App.py:44-47 | deduplication leaves zero rows only when there were none, so percentages divide by a positive count |
| Impute.PresentOfMapped | App.py:61-66 | the scaler keeps missing cells missing, so the values the imputer is fitted on are the scaled present values, in row order |
| Impute.MostFrequentValue | App.py:55 | the `most_frequent` statistic occurs in the column, and no value occurs more often |
| Impute.MostFrequentBreaksTiesBySmallest | App.py:55 | among equally frequent values the chosen one is the least under the tie-break order |
| Impute.ImputeMostFrequent | App.py:55-66 | an empty column fails, and an all-missing column fails; otherwise present cells stay and every missing cell takes the same most frequent value; label, dtype and length are kept |
| Impute.UniqueModeFills | App.py:55-66 | a value strictly more frequent than all others fills every missing cell, whatever the tie-break order |
| Impute.ScaleThenImpute | App.py:57-66 | the numeric branch: an empty column fails, a column with an infinite value fails, an all-missing column fails, and it succeeds in every other case; then each present cell becomes its scaled value, and each missing cell becomes the median or mean of the scaled present values |
| Cleaning.ExceedsIsPercentAboveThirty | App.py:47-50 | on a frame with rows, the integer drop test `Exceeds` agrees with "missing percentage above 30" on real numbers, so a column exactly 30% missing is kept |
| Cleaning.PercentAboveThirty | App.py:47-50 | on every frame, `value > 30` on pandas' percentage (NaN on a frame with no rows) holds exactly when `Exceeds` does |
| Cleaning.NullTableMeaning | App.py:47-50 | `percent_null_dict` (`NullTable`) lists every label once, in column order, and its `value > 30` test holds exactly when more than 30% of that column's cells are missing |
| Cleaning.ImputerFor | App.py:53-65 | a column that is not dropped always gets an imputer |
| Cleaning.TransformMeaning | App.py:53-66 | an imputer (`Transform`) succeeds exactly when the column has a present value and, on the numeric branches, no infinite one; it keeps label, dtype and length, leaves no missing cell, keeps present cells of the `most_frequent` branch, and scales present cells on the other branches |
| Cleaning.Kept | App.py:50-51 | the kept columns are input columns at most 30% missing, every such column is among them, and labels stay distinct |
| Cleaning.KeptInOrder | App.py:49-51 | the kept columns are the input columns at increasing positions, and those positions are exactly the columns at most 30% missing, so input order is kept |
| Cleaning.CleanColumnsStep | App.py:49-66 | one step of the column-wise run succeeds when the column is dropped or its imputer accepts it, and the rest succeeds; its decision comes first |
| Cleaning.CleanColumnsSucceeds | App.py:49-66 | the column-wise run (`CleanColumns`) succeeds exactly when every kept column has a present value and, unless it is an object column, no infinite value |
| Cleaning.CleanColumnsDecisions | App.py:49-66 | a successful column-wise run records each column's own decision (`Decide`), in column order |
| Cleaning.CleanColumnsOutputs | App.py:49-66 | output column `j` of a successful column-wise run is kept column `j` through its imputer |
| Cleaning.LoopIsColumnWise | App.py:49-66 | the label-driven loop over the mutating frame (`RunLoop`) computes the column-wise reference: no step disturbs a later column or its recorded percentage, and no label lookup fails |
| Cleaning.CleanIsColumnWise | App.py:44-66 | the whole block (`Clean`) equals the column-wise reference applied to the deduplicated frame |
| Cleaning.KeptColumnHasValue | App.py:50 | on a frame with rows, a column that is at most 30% missing has a present value |
| Cleaning.CleanSucceeds | App.py:44-66 | the block succeeds exactly when the frame has a row or has no columns, and every kept numeric column of the deduplicated frame is free of infinite values; with columns and no rows it fails on the first column |
| Cleaning.ColumnWiseShape | App.py:49-66 | a successful column-wise run outputs the kept columns in order, each with its label, dtype and height and no missing cell |
| Cleaning.ColumnWiseWellFormed | App.py:49-66 | over distinct labels of one height, the output columns have that height and distinct labels |
| Cleaning.TransformKeepsOrScales | App.py:53-66 | a column through its imputer keeps its present values if it is an object column and scales them otherwise |
| Cleaning.ColumnWiseCells | App.py:49-66 | in a successful column-wise run, each kept column's present values are kept or scaled according to its dtype |
| Cleaning.CleanDecisions | App.py:44-66 | a successful block records one decision per input column, in order, each computed from that column of the deduplicated frame alone |
| Cleaning.CleanShape | App.py:44-66 | after a successful block the output is well formed and as tall as the deduplicated frame; its columns are exactly the columns at most 30% missing, with their labels, dtypes and order, and none has a missing cell |
| Cleaning.CleanPresentCells | App.py:44-66 | after a successful block, object columns keep their present values and every other column has its present values robust-scaled |
| Cleaning.TransformFills | App.py:53-66 | a missing cell of an object column takes the column's one `most_frequent` statistic (a mode, ties broken by the tie-break order); of any other column, the median of the scaled values when outliers are found, otherwise their mean |
| Cleaning.FillsMissingOneValue | App.py:55-66 | a column filled as prescribed holds one and the same value in every cell that was missing, as the imputer writes a single fitted statistic |
| Cleaning.ColumnWiseFills | App.py:49-66 | in a successful column-wise run, every kept column's missing cells are filled as prescribed by its dtype and outliers |
| Cleaning.CleanFillsMissing | App.py:44-66 | after a successful block, every missing cell of every kept column is filled with the one statistic that its dtype and outlier list select, the same for every missing cell of that column |
| Cleaning.CleanColumnsAppend | App.py:49-66 | cleaning two groups of columns separately gives the same columns and decisions as cleaning them together |
| Scenarios.AgreeOnKeptGivesEqualRows | App.py:44-66 | after a successful block, any two rows of the deduplicated frame that agree on every kept column are equal in the output, whatever they hold in the dropped columns |
| Scenarios.DroppingCanRepeatRows | App.py:44-51 | the two-column instance: with distinct rows, a complete object column whose rows 0 and 1 agree and a second column more than 30% missing, the block succeeds and its rows 0 and 1 are equal |
| Scenarios.RepeatingMeetsPremises | App.py:44-51 | a concrete three-row frame meets every premise of `DroppingCanRepeatRows` |
| Scenarios.RepeatingRepeatsAfterCleaning | App.py:44-51 | that frame has distinct rows, is cleaned successfully whatever the toolkit, and its cleaned rows 0 and 1 are equal |

## Left out

- The Streamlit interface, file upload, CSV parsing and the profiling reports: I/O outside the cleaning block.
- The body of `mm.detect_outliers_iqr`: it is an abstract parameter, and only whether its list is empty matters to the block. Whether it can raise on a column of missing values is not modelled.
- The arithmetic of `RobustScaler`, the median and the mean: these are floating-point numerics, modelled as abstract functions. The model records which values they are applied to and which cells receive their results.
- Cleaning.ExceedsIsPercentAboveThirty: the drop test is exact rational arithmetic. Floating-point rounding in `nulls / rows * 100` is not modelled.
- Cleaning.ImputerFor: every dtype other than `object` takes the numeric branch. From a CSV file pandas yields object, integer, float and boolean columns; sklearn converts booleans to floats, so this matches the code. Whether the outlier detector accepts a boolean column is not modelled, because its body is not part of this model.
- Cleaning.CleanSucceeds: two other ways the block can raise are not modelled. The outlier detector may raise, and its body is not part of this model. Python's `<` may raise on mixed-type values while sklearn breaks a `most_frequent` tie, and the tie-break order is a parameter.
- Dedup.DropDuplicates: on a frame with rows but no columns, pandas returns the frame unchanged, while the model keeps one row. `read_csv` never yields such a frame, because a file with rows has a header.
- Impute.MostFrequentBreaksTiesBySmallest: the tie-break order is a parameter assumed to be a strict total order. Python's `<` on mixed types, which can raise, is not modelled.
- The unused `shape` and `columns_with_nulls` (App.py:45-46) are dead code.
- The `except` branch and its message: the model returns which error occurred, not the text shown.
- Integer and float cell dtypes are not distinguished. The scaled and imputed values are of the same abstract type `V`.

=== FILE: cleaning.dfy ===
/** The cleaning block of `App.py`: drop duplicate rows, measure each
    column's missing cells once, then walk the columns in order, dropping
    those with more than 30% missing and imputing the rest (object columns
    with the most frequent value, other columns robust-scaled and then
    median- or mean-imputed depending on the outlier detector). */
module Cleaning {
  import opened Frames
  import opened Dedup
  import opened Impute

  /** What the walk does to one column. */
  datatype Decision = Dropped | MostFrequent | ScaleThenMedian | ScaleThenMean

  /** The drop test `value > 30` on `nulls / rows * 100`, cross-multiplied
      into integers. */
  predicate Exceeds(nulls: nat, rows: nat)
  {
    nulls * 100 > 30 * rows
  }

  /** A pandas float as a missing percentage can come out: a real number,
      positive infinity (`n / 0` for `n > 0`) or NaN (`0 / 0`). */
  datatype Float = Num(value: real) | PosInf | NaN

  /** `nulls / rows * 100`, as pandas evaluates it on a column of `rows` cells. */
  function Percent(nulls: nat, rows: nat): Float
  {
    if rows > 0 then Num((nulls as real) / (rows as real) * 100.0)
    else if nulls > 0 then PosInf
    else NaN
  }

  /** `value > 30` on a pandas float: infinity exceeds it, NaN does not. */
  predicate AboveThirty(p: Float)
  {
    match p
    case Num(v) => v > 30.0
    case PosInf => true
    case NaN => false
  }

  /** The integer test decides the float comparison on every input,
      including the empty frame where the percentage is NaN. */
  lemma PercentAboveThirty(nulls: nat, rows: nat)
    ensures AboveThirty(Percent(nulls, rows)) <==> Exceeds(nulls, rows)
  {
    if rows > 0 {
      ExceedsIsPercentAboveThirty(nulls, rows);
    }
  }

  /** The integer test agrees with the percentage comparison it replaces. */
  lemma ExceedsIsPercentAboveThirty(nulls: nat, rows: nat)
    requires rows > 0
    ensures Exceeds(nulls, rows) <==> (nulls as real) / (rows as real) * 100.0 > 30.0
  {
    var n := nulls as real;
    var r := rows as real;
    var q := n / r;
    assert q * r == n;
    var p := q * 100.0;
    assert p * r == n * 100.0 by {
      assert p * r == (q * r) * 100.0;
    }
    ScaleByPositive(p, 30.0, r);
  }

  lemma ScaleByPositive(x: real, y: real, r: real)
    requires r > 0.0
    ensures x > y <==> x * r > y * r
  {
    assert x * r - y * r == (x - y) * r;
  }

  /** The imputer a kept column gets: by dtype, then by the outlier list. */
  function ImputerFor<V>(col: Column<V>, tk: Toolkit<V>): (d: Decision)
    ensures d != Dropped
  {
    if col.isObject then MostFrequent
    else if |tk.outliers(col.cells)| > 0 then ScaleThenMedian
    else ScaleThenMean
  }

  /** The decision for one column, from its own cells, dtype and outlier
      list and the frame's row count. */
  function Decide<V>(col: Column<V>, rows: nat, tk: Toolkit<V>): Decision
  {
    if Exceeds(NullCount(col.cells), rows) then Dropped else ImputerFor(col, tk)
  }

  /** Runs the transforms a decision names on one kept column. */
  function Transform<V(==)>(col: Column<V>, d: Decision, tk: Toolkit<V>): Result<Column<V>>
    requires d != Dropped
  {
    if d == MostFrequent then ImputeMostFrequent(col, tk.less)
    else ScaleThenImpute(col, d == ScaleThenMedian, tk)
  }

  /** Whether the imputer of a kept column accepts it: the column has a
      present value and, unless it is an object column, no infinite one. */
  predicate Imputable<V>(col: Column<V>, tk: Toolkit<V>)
  {
    NullCount(col.cells) < |col.cells| && (!col.isObject ==> AllFinite(col.cells, tk.finite))
  }

  /** An imputer succeeds exactly when the column has a present value and,
      on the numeric branches, no infinite one. It keeps the label, dtype
      flag and length and leaves no missing cell; the most-frequent imputer
      keeps present cells, the numeric branches scale them. */
  lemma TransformMeaning<V>(col: Column<V>, d: Decision, tk: Toolkit<V>)
    requires d != Dropped
    ensures var r := Transform(col, d, tk);
      && (r.Success? <==> NullCount(col.cells) < |col.cells| && (d != MostFrequent ==> AllFinite(col.cells, tk.finite)))
      && (|col.cells| == 0 ==> r == Failure(EmptyColumn(col.name)))
      && (0 < |col.cells| && d != MostFrequent && !AllFinite(col.cells, tk.finite) ==> r == Failure(NotFinite(col.name)))
    ensures var r := Transform(col, d, tk);
      r.Success? ==>
        && r.value.name == col.name && r.value.isObject == col.isObject
        && |r.value.cells| == |col.cells| && NullCount(r.value.cells) == 0
    ensures var r := Transform(col, d, tk);
      r.Success? && d == MostFrequent ==>
        forall i :: 0 <= i < |col.cells| && col.cells[i].Some? ==> r.value.cells[i] == col.cells[i]
    ensures var r := Transform(col, d, tk);
      r.Success? && d != MostFrequent ==>
        forall i :: 0 <= i < |col.cells| && col.cells[i].Some? ==>
          r.value.cells[i] == Some(tk.scale(col.cells, col.cells[i].value))
  {
  }

  /** `percent_null_dict`: each label with its column's missing percentage,
      in column order. */
  function NullTable<V>(cols: seq<Column<V>>, rows: nat): (items: seq<(string, Float)>)
    ensures |items| == |cols|
  {
    seq(|cols|, i requires 0 <= i < |cols| => (cols[i].name, Percent(NullCount(cols[i].cells), rows)))
  }

  /** The table lists every label once, in column order, and its `value > 30`
      test holds exactly when more than 30% of that column's cells are missing. */
  lemma NullTableMeaning<V>(cols: seq<Column<V>>, rows: nat)
    ensures forall i :: 0 <= i < |cols| ==> NullTable(cols, rows)[i].0 == cols[i].name
    ensures forall i :: 0 <= i < |cols| ==>
      (AboveThirty(NullTable(cols, rows)[i].1) <==> Exceeds(NullCount(cols[i].cells), rows))
  {
    forall i | 0 <= i < |cols|
      ensures AboveThirty(NullTable(cols, rows)[i].1) <==> Exceeds(NullCount(cols[i].cells), rows)
    {
      PercentAboveThirty(NullCount(cols[i].cells), rows);
    }
  }

  function Prepend<T>(d: Decision, r: Result<(T, seq<Decision>)>): Result<(T, seq<Decision>)>
  {
    match r
    case Failure(e) => Failure(e)
    case Success(p) => Success((p.0, [d] + p.1))
  }

  /** The `for key, value in percent_null_dict.items()` walk as written: it
      mutates one frame, finds each column by its label in the frame as it
      stands, and raises at the first failing column. */
  function RunLoop<V(==)>(df: Frame<V>, items: seq<(string, Float)>, tk: Toolkit<V>)
    : Result<(Frame<V>, seq<Decision>)>
    decreases |items|
  {
    if |items| == 0 then Success((df, []))
    else
      var key := items[0].0;
      if !HasName(df.columns, key) then Failure(MissingKey(key))
      else if AboveThirty(items[0].1) then
        Prepend(Dropped, RunLoop(df.(columns := DropColumn(df.columns, key)), items[1..], tk))
      else
        var col := Lookup(df.columns, key);
        var d := ImputerFor(col, tk);
        match Transform(col, d, tk)
        case Failure(e) => Failure(e)
        case Success(c) =>
          Prepend(d, RunLoop(df.(columns := SetCells(df.columns, key, c.cells)), items[1..], tk))
  }

  /** The whole cleaning block: the cleaned frame and one decision per input column. */
  function Clean<V(==)>(t: Frame<V>, tk: Toolkit<V>): Result<(Frame<V>, seq<Decision>)>
    requires Rectangular(t)
  {
    var d := DropDuplicates(t);
    RunLoop(d, NullTable(d.columns, d.height), tk)
  }

  /** The columns whose missing share is at most 30%, in order. */
  function Kept<V>(cols: seq<Column<V>>, rows: nat): (r: seq<Column<V>>)
    ensures |r| <= |cols|
    ensures forall j :: 0 <= j < |r| ==> r[j] in cols && !Exceeds(NullCount(r[j].cells), rows)
    ensures forall i :: 0 <= i < |cols| && !Exceeds(NullCount(cols[i].cells), rows) ==> cols[i] in r
    ensures DistinctNames(cols) ==> DistinctNames(r)
    decreases |cols|
  {
    if |cols| == 0 then []
    else
      var rest := Kept(cols[1..], rows);
      assert forall i :: 1 <= i < |cols| ==> cols[i] == cols[1..][i - 1];
      if Exceeds(NullCount(cols[0].cells), rows) then rest
      else
        assert DistinctNames(cols) ==> forall j :: 0 <= j < |rest| ==> rest[j].name != cols[0].name;
        [cols[0]] + rest
  }

  /** `ys` is `xs` read at the positions `idx`, one after another. */
  ghost predicate Picks<T>(xs: seq<T>, ys: seq<T>, idx: seq<nat>)
  {
    |idx| == |ys| && forall j :: 0 <= j < |idx| ==> idx[j] < |xs| && ys[j] == xs[idx[j]]
  }

  predicate Increasing(idx: seq<nat>)
  {
    forall j, k :: 0 <= j < k < |idx| ==> idx[j] < idx[k]
  }

  /** Every position moved one place to the right. */
  function Shift(idx: seq<nat>): (r: seq<nat>)
    ensures |r| == |idx| && forall j :: 0 <= j < |idx| ==> r[j] == idx[j] + 1
  {
    seq(|idx|, j requires 0 <= j < |idx| => idx[j] + 1)
  }

  /** Shifting keeps positions increasing and moves membership by one. */
  lemma ShiftIncreasing(idx: seq<nat>)
    requires Increasing(idx)
    ensures Increasing(Shift(idx)) && 0 !in Shift(idx)
    ensures forall i: nat :: i + 1 in Shift(idx) <==> i in idx
  {
    var r := Shift(idx);
    forall i: nat | i in idx ensures i + 1 in r {
      var j :| 0 <= j < |idx| && idx[j] == i;
      assert r[j] == i + 1;
    }
  }

  /** Putting position 0 in front of positive increasing positions keeps them increasing. */
  lemma ConsZeroIncreasing(sh: seq<nat>)
    requires 0 !in sh && Increasing(sh)
    ensures Increasing([0] + sh)
    ensures forall i :: i in [0] + sh <==> i == 0 || i in sh
  {
    var idx := [0] + sh;
    forall j, k | 0 <= j < k < |idx| ensures idx[j] < idx[k] {
      assert idx[k] == sh[k - 1];
      if j > 0 {
        assert idx[j] == sh[j - 1];
      } else {
        assert sh[k - 1] in sh;
      }
    }
  }

  /** Picks from a tail are picks from the whole at shifted positions; the
      head can be picked first at position 0. */
  lemma PicksCons<T>(x: T, xs: seq<T>, ys: seq<T>, idx: seq<nat>)
    requires Picks(xs, ys, idx)
    ensures Picks([x] + xs, ys, Shift(idx))
    ensures Picks([x] + xs, [x] + ys, [0] + Shift(idx))
  {
    var sh := Shift(idx);
    forall j | 0 <= j < |idx| ensures sh[j] < |[x] + xs| && ys[j] == ([x] + xs)[sh[j]] {
      assert ([x] + xs)[idx[j] + 1] == xs[idx[j]];
    }
    var whole := [0] + sh;
    forall j | 0 <= j < |whole| ensures whole[j] < |[x] + xs| && ([x] + ys)[j] == ([x] + xs)[whole[j]] {
      if j > 0 {
        assert whole[j] == sh[j - 1] && ([x] + ys)[j] == ys[j - 1];
      }
    }
  }

  /** `idx` holds exactly the positions of the columns at most 30% missing. */
  predicate KeptPositions<V>(cols: seq<Column<V>>, rows: nat, idx: seq<nat>)
  {
    forall i :: 0 <= i < |cols| ==> (i in idx <==> !Exceeds(NullCount(cols[i].cells), rows))
  }

  /** Positions in the tail, shifted, are the positions after the head;
      position 0 joins them when the head is kept. */
  lemma KeptPositionsShift<V>(c: Column<V>, tail: seq<Column<V>>, rows: nat, idx: seq<nat>)
    requires KeptPositions(tail, rows, idx) && Increasing(idx)
    ensures Exceeds(NullCount(c.cells), rows) ==> KeptPositions([c] + tail, rows, Shift(idx))
    ensures !Exceeds(NullCount(c.cells), rows) ==> KeptPositions([c] + tail, rows, [0] + Shift(idx))
  {
    var cols := [c] + tail;
    var sh := Shift(idx);
    ShiftIncreasing(idx);
    ConsZeroIncreasing(sh);
    forall i | 1 <= i < |cols|
      ensures i in sh <==> !Exceeds(NullCount(cols[i].cells), rows)
    {
      assert cols[i] == tail[i - 1];
      assert i == (i - 1) + 1;
    }
    assert cols[0] == c;
  }

  /** Unfolds `Kept` one column. */
  lemma KeptCons<V>(c: Column<V>, tail: seq<Column<V>>, rows: nat)
    ensures Kept([c] + tail, rows) == if Exceeds(NullCount(c.cells), rows) then Kept(tail, rows) else [c] + Kept(tail, rows)
  {
    assert ([c] + tail)[0] == c && ([c] + tail)[1..] == tail;
  }

  lemma KeptOrderDropStep<V>(c: Column<V>, tail: seq<Column<V>>, rows: nat, idx: seq<nat>)
    requires Exceeds(NullCount(c.cells), rows)
    requires Picks(tail, Kept(tail, rows), idx) && Increasing(idx) && KeptPositions(tail, rows, idx)
    ensures Picks([c] + tail, Kept([c] + tail, rows), Shift(idx))
    ensures Increasing(Shift(idx)) && KeptPositions([c] + tail, rows, Shift(idx))
  {
    KeptCons(c, tail, rows);
    ShiftIncreasing(idx);
    PicksCons(c, tail, Kept(tail, rows), idx);
    KeptPositionsShift(c, tail, rows, idx);
  }

  lemma KeptOrderKeepStep<V>(c: Column<V>, tail: seq<Column<V>>, rows: nat, idx: seq<nat>)
    requires !Exceeds(NullCount(c.cells), rows)
    requires Picks(tail, Kept(tail, rows), idx) && Increasing(idx) && KeptPositions(tail, rows, idx)
    ensures Picks([c] + tail, Kept([c] + tail, rows), [0] + Shift(idx))
    ensures Increasing([0] + Shift(idx)) && KeptPositions([c] + tail, rows, [0] + Shift(idx))
  {
    KeptCons(c, tail, rows);
    ShiftIncreasing(idx);
    PicksCons(c, tail, Kept(tail, rows), idx);
    KeptPositionsShift(c, tail, rows, idx);
    ConsZeroIncreasing(Shift(idx));
  }

  /** The kept columns are the input columns at positions `idx`, which
      increase and are exactly the positions of the columns at most 30% missing. */
  lemma {:induction false} KeptInOrder<V>(cols: seq<Column<V>>, rows: nat) returns (idx: seq<nat>)
    ensures Picks(cols, Kept(cols, rows), idx) && Increasing(idx)
    ensures forall i :: 0 <= i < |cols| ==> (i in idx <==> !Exceeds(NullCount(cols[i].cells), rows))
    decreases |cols|
  {
    if |cols| == 0 {
      idx := [];
    } else {
      var c := cols[0];
      var tail := cols[1..];
      assert cols == [c] + tail;
      var rest := KeptInOrder(tail, rows);
      if Exceeds(NullCount(c.cells), rows) {
        KeptOrderDropStep(c, tail, rows, rest);
        idx := Shift(rest);
      } else {
        KeptOrderKeepStep(c, tail, rows, rest);
        idx := [0] + Shift(rest);
      }
    }
  }

  /** Reference semantics: every column handled on its own, from its own
      cells, with no frame threaded between them. */
  function CleanColumns<V(==)>(cols: seq<Column<V>>, rows: nat, tk: Toolkit<V>)
    : Result<(seq<Column<V>>, seq<Decision>)>
    decreases |cols|
  {
    if |cols| == 0 then Success(([], []))
    else
      var c := cols[0];
      var d := Decide(c, rows, tk);
      var rest := CleanColumns(cols[1..], rows, tk);
      if d == Dropped then
        Prepend(Dropped, rest)
      else
        match Transform(c, d, tk)
        case Failure(e) => Failure(e)
        case Success(c') =>
          match rest
          case Failure(e) => Failure(e)
          case Success(p) => Success(([c'] + p.0, [d] + p.1))
  }

  /** One step of the column-wise run: it succeeds when the first column
      is dropped or its imputer accepts it, and the rest succeeds; then its
      decisions are the first column's followed by the rest's. */
  lemma CleanColumnsStep<V>(c: Column<V>, tail: seq<Column<V>>, rows: nat, tk: Toolkit<V>)
    ensures var r := CleanColumns([c] + tail, rows, tk); var rest := CleanColumns(tail, rows, tk);
      && (r.Success? <==>
            rest.Success? && (Decide(c, rows, tk) != Dropped ==> Imputable(c, tk)))
      && (r.Success? ==> r.value.1 == [Decide(c, rows, tk)] + rest.value.1)
  {
    assert ([c] + tail)[0] == c && ([c] + tail)[1..] == tail;
    if Decide(c, rows, tk) != Dropped {
      TransformMeaning(c, Decide(c, rows, tk), tk);
    }
  }

  /** The column-wise run fails exactly when the imputer of some kept column refuses it. */
  lemma {:induction false} CleanColumnsSucceeds<V>(cols: seq<Column<V>>, rows: nat, tk: Toolkit<V>)
    ensures CleanColumns(cols, rows, tk).Success? <==>
      forall i :: 0 <= i < |cols| && Decide(cols[i], rows, tk) != Dropped ==> Imputable(cols[i], tk)
    decreases |cols|
  {
    if |cols| > 0 {
      var tail := cols[1..];
      assert cols == [cols[0]] + tail;
      CleanColumnsSucceeds(tail, rows, tk);
      CleanColumnsStep(cols[0], tail, rows, tk);
      assert forall i :: 1 <= i < |cols| ==> cols[i] == tail[i - 1];
    }
  }

  /** A successful column-wise run records every column's own decision, in order. */
  lemma {:induction false} CleanColumnsDecisions<V>(cols: seq<Column<V>>, rows: nat, tk: Toolkit<V>)
    ensures var r := CleanColumns(cols, rows, tk);
      r.Success? ==>
        && |r.value.1| == |cols|
        && (forall i :: 0 <= i < |cols| ==> r.value.1[i] == Decide(cols[i], rows, tk))
    decreases |cols|
  {
    if |cols| > 0 {
      var tail := cols[1..];
      assert cols == [cols[0]] + tail;
      CleanColumnsDecisions(tail, rows, tk);
      CleanColumnsStep(cols[0], tail, rows, tk);
      assert forall i :: 1 <= i < |cols| ==> cols[i] == tail[i - 1];
    }
  }

  /** `out[j]` is `kept[j]` through its imputer, for every `j`. */
  predicate ImputedInOrder<V(==)>(kept: seq<Column<V>>, out: seq<Column<V>>, tk: Toolkit<V>)
  {
    |out| == |kept| && forall j :: 0 <= j < |kept| ==> Transform(kept[j], ImputerFor(kept[j], tk), tk) == Success(out[j])
  }

  /** A relation holding pointwise between two sequences still holds after
      prepending a related pair. */
  lemma ConsPointwise<A, B>(rel: (A, B) -> bool, x: A, y: B, xs: seq<A>, ys: seq<B>)
    requires rel(x, y) && |xs| == |ys|
    requires forall j :: 0 <= j < |xs| ==> rel(xs[j], ys[j])
    ensures forall j :: 0 <= j < |xs| + 1 ==> rel(([x] + xs)[j], ([y] + ys)[j])
  {
    forall j | 0 <= j < |xs| + 1 ensures rel(([x] + xs)[j], ([y] + ys)[j]) {
      if j > 0 {
        assert ([x] + xs)[j] == xs[j - 1] && ([y] + ys)[j] == ys[j - 1];
      }
    }
  }

  lemma OutputsDropStep<V>(c: Column<V>, tail: seq<Column<V>>, rows: nat, tk: Toolkit<V>)
    requires Exceeds(NullCount(c.cells), rows)
    requires CleanColumns(tail, rows, tk).Success? ==>
      ImputedInOrder(Kept(tail, rows), CleanColumns(tail, rows, tk).value.0, tk)
    ensures CleanColumns([c] + tail, rows, tk).Success? ==>
      ImputedInOrder(Kept([c] + tail, rows), CleanColumns([c] + tail, rows, tk).value.0, tk)
  {
    assert ([c] + tail)[0] == c && ([c] + tail)[1..] == tail;
  }

  lemma OutputsKeepStep<V>(c: Column<V>, tail: seq<Column<V>>, c2: Column<V>, rows: nat, tk: Toolkit<V>)
    requires !Exceeds(NullCount(c.cells), rows)
    requires Transform(c, ImputerFor(c, tk), tk) == Success(c2)
    requires CleanColumns(tail, rows, tk).Success? ==>
      ImputedInOrder(Kept(tail, rows), CleanColumns(tail, rows, tk).value.0, tk)
    ensures CleanColumns([c] + tail, rows, tk).Success? ==>
      ImputedInOrder(Kept([c] + tail, rows), CleanColumns([c] + tail, rows, tk).value.0, tk)
  {
    var rest := CleanColumns(tail, rows, tk);
    CleanColumnsKeepUnfold(c, tail, c2, rows, tk);
    assert Kept([c] + tail, rows) == [c] + Kept(tail, rows) by {
      assert ([c] + tail)[0] == c && ([c] + tail)[1..] == tail;
    }
    if rest.Success? {
      var rel := (x: Column<V>, y: Column<V>) => Transform(x, ImputerFor(x, tk), tk) == Success(y);
      ConsPointwise(rel, c, c2, Kept(tail, rows), rest.value.0);
    }
  }

  lemma OutputsFailStep<V>(c: Column<V>, tail: seq<Column<V>>, rows: nat, tk: Toolkit<V>)
    requires !Exceeds(NullCount(c.cells), rows)
    requires Transform(c, ImputerFor(c, tk), tk).Failure?
    ensures CleanColumns([c] + tail, rows, tk).Failure?
  {
    assert ([c] + tail)[0] == c && ([c] + tail)[1..] == tail;
  }

  /** The columns of a successful column-wise run are the kept ones, each through its imputer. */
  lemma {:induction false} CleanColumnsOutputs<V>(cols: seq<Column<V>>, rows: nat, tk: Toolkit<V>)
    ensures var r := CleanColumns(cols, rows, tk);
      r.Success? ==> ImputedInOrder(Kept(cols, rows), r.value.0, tk)
    decreases |cols|
  {
    if |cols| > 0 {
      var c := cols[0];
      var tail := cols[1..];
      assert cols == [c] + tail;
      CleanColumnsOutputs(tail, rows, tk);
      if Exceeds(NullCount(c.cells), rows) {
        OutputsDropStep(c, tail, rows, tk);
      } else {
        match Transform(c, ImputerFor(c, tk), tk)
        case Failure(_) =>
          OutputsFailStep(c, tail, rows, tk);
        case Success(c2) =>
          OutputsKeepStep(c, tail, c2, rows, tk);
      }
    }
  }

  /** The column-wise run fails exactly when the imputer of some kept
      column refuses it; when it succeeds it records every column's decision in
      order, and its columns are the kept ones, each through its imputer. */
  lemma CleanColumnsMeaning<V>(cols: seq<Column<V>>, rows: nat, tk: Toolkit<V>)
    ensures var r := CleanColumns(cols, rows, tk);
      r.Success? <==>
        forall i :: 0 <= i < |cols| && Decide(cols[i], rows, tk) != Dropped ==> Imputable(cols[i], tk)
    ensures var r := CleanColumns(cols, rows, tk);
      r.Success? ==>
        && |r.value.1| == |cols|
        && (forall i :: 0 <= i < |cols| ==> r.value.1[i] == Decide(cols[i], rows, tk))
    ensures var r := CleanColumns(cols, rows, tk); var kept := Kept(cols, rows);
      r.Success? ==>
        && |r.value.0| == |kept|
        && forall j :: 0 <= j < |kept| ==> Transform(kept[j], ImputerFor(kept[j], tk), tk) == Success(r.value.0[j])
  {
    CleanColumnsSucceeds(cols, rows, tk);
    CleanColumnsDecisions(cols, rows, tk);
    CleanColumnsOutputs(cols, rows, tk);
  }

  /** A column-wise result placed after the columns `done`, as a frame of height `height`. */
  function Attach<V>(done: seq<Column<V>>, height: nat, r: Result<(seq<Column<V>>, seq<Decision>)>)
    : Result<(Frame<V>, seq<Decision>)>
  {
    match r
    case Failure(e) => Failure(e)
    case Success(p) => Success((Frame(done + p.0, height), p.1))
  }

  lemma DropInPlace<V>(done: seq<Column<V>>, c: Column<V>, tail: seq<Column<V>>)
    requires DistinctNames(done + [c] + tail)
    ensures DropColumn(done + [c] + tail, c.name) == done + tail
    ensures DistinctNames(done + tail)
  {
    var cols := done + [c] + tail;
    DropColumnRemovesOnlyIt(cols, c.name);
    assert cols[|done|] == c;
    assert cols[..|done|] == done;
    assert cols[|done| + 1..] == tail;
  }

  lemma LookupInPlace<V>(done: seq<Column<V>>, c: Column<V>, tail: seq<Column<V>>)
    requires DistinctNames(done + [c] + tail)
    ensures HasName(done + [c] + tail, c.name)
    ensures Lookup(done + [c] + tail, c.name) == c
  {
    assert (done + [c] + tail)[|done|] == c;
  }

  lemma SetInPlace<V>(done: seq<Column<V>>, c: Column<V>, tail: seq<Column<V>>, c2: Column<V>)
    requires DistinctNames(done + [c] + tail)
    requires c2.name == c.name && c2.isObject == c.isObject
    ensures SetCells(done + [c] + tail, c.name, c2.cells) == done + [c2] + tail
    ensures DistinctNames(done + [c2] + tail)
  {
    var cols := done + [c] + tail;
    var cols2 := SetCells(cols, c.name, c2.cells);
    var want := done + [c2] + tail;
    assert cols[|done|] == c;
    forall i | 0 <= i < |cols| ensures cols2[i] == want[i] {
      if i != |done| {
        assert cols[i].name != c.name;
        assert cols[i] == want[i];
      }
    }
    assert cols2 == want;
  }

  lemma NullTableCons<V>(c: Column<V>, tail: seq<Column<V>>, height: nat)
    ensures |NullTable([c] + tail, height)| > 0
    ensures NullTable([c] + tail, height)[0] == (c.name, Percent(NullCount(c.cells), height))
    ensures NullTable([c] + tail, height)[1..] == NullTable(tail, height)
  {
    assert forall i :: 0 <= i < |tail| ==> ([c] + tail)[i + 1] == tail[i];
  }

  lemma LoopDropStep<V>(done: seq<Column<V>>, c: Column<V>, tail: seq<Column<V>>, height: nat, tk: Toolkit<V>)
    requires DistinctNames(done + [c] + tail)
    requires Exceeds(NullCount(c.cells), height)
    requires RunLoop(Frame(done + tail, height), NullTable(tail, height), tk)
          == Attach(done, height, CleanColumns(tail, height, tk))
    ensures RunLoop(Frame(done + [c] + tail, height), NullTable([c] + tail, height), tk)
         == Attach(done, height, CleanColumns([c] + tail, height, tk))
  {
    NullTableCons(c, tail, height);
    PercentAboveThirty(NullCount(c.cells), height);
    LookupInPlace(done, c, tail);
    DropInPlace(done, c, tail);
    assert ([c] + tail)[0] == c && ([c] + tail)[1..] == tail;
  }

  lemma LoopFailStep<V>(done: seq<Column<V>>, c: Column<V>, tail: seq<Column<V>>, height: nat, tk: Toolkit<V>)
    requires DistinctNames(done + [c] + tail)
    requires !Exceeds(NullCount(c.cells), height)
    requires Transform(c, ImputerFor(c, tk), tk).Failure?
    ensures RunLoop(Frame(done + [c] + tail, height), NullTable([c] + tail, height), tk)
         == Attach(done, height, CleanColumns([c] + tail, height, tk))
  {
    NullTableCons(c, tail, height);
    PercentAboveThirty(NullCount(c.cells), height);
    LookupInPlace(done, c, tail);
    assert ([c] + tail)[0] == c && ([c] + tail)[1..] == tail;
  }

  lemma RunLoopKeepUnfold<V>(df: Frame<V>, items: seq<(string, Float)>, c2: Column<V>, tk: Toolkit<V>)
    requires |items| > 0 && HasName(df.columns, items[0].0) && !AboveThirty(items[0].1)
    requires var col := Lookup(df.columns, items[0].0); Transform(col, ImputerFor(col, tk), tk) == Success(c2)
    ensures RunLoop(df, items, tk)
         == Prepend(ImputerFor(Lookup(df.columns, items[0].0), tk),
                    RunLoop(df.(columns := SetCells(df.columns, items[0].0, c2.cells)), items[1..], tk))
  {
  }

  lemma CleanColumnsKeepUnfold<V>(c: Column<V>, tail: seq<Column<V>>, c2: Column<V>, rows: nat, tk: Toolkit<V>)
    requires !Exceeds(NullCount(c.cells), rows)
    requires Transform(c, ImputerFor(c, tk), tk) == Success(c2)
    ensures CleanColumns([c] + tail, rows, tk)
         == match CleanColumns(tail, rows, tk)
            case Failure(e) => Failure(e)
            case Success(p) => Success(([c2] + p.0, [ImputerFor(c, tk)] + p.1))
  {
    assert ([c] + tail)[0] == c && ([c] + tail)[1..] == tail;
  }

  lemma LoopKeepStep<V>(done: seq<Column<V>>, c: Column<V>, tail: seq<Column<V>>, c2: Column<V>, height: nat, tk: Toolkit<V>)
    requires DistinctNames(done + [c] + tail)
    requires !Exceeds(NullCount(c.cells), height)
    requires Transform(c, ImputerFor(c, tk), tk) == Success(c2)
    requires RunLoop(Frame(done + [c2] + tail, height), NullTable(tail, height), tk)
          == Attach(done + [c2], height, CleanColumns(tail, height, tk))
    ensures RunLoop(Frame(done + [c] + tail, height), NullTable([c] + tail, height), tk)
         == Attach(done, height, CleanColumns([c] + tail, height, tk))
  {
    var df := Frame(done + [c] + tail, height);
    var items := NullTable([c] + tail, height);
    var d := ImputerFor(c, tk);
    var next := RunLoop(Frame(done + [c2] + tail, height), NullTable(tail, height), tk);
    assert RunLoop(df, items, tk) == Prepend(d, next) by {
      NullTableCons(c, tail, height);
      PercentAboveThirty(NullCount(c.cells), height);
      LookupInPlace(done, c, tail);
      SetInPlace(done, c, tail, c2);
      assert df.(columns := SetCells(df.columns, c.name, c2.cells)) == Frame(done + [c2] + tail, height);
      RunLoopKeepUnfold(df, items, c2, tk);
    }
    CleanColumnsKeepUnfold(c, tail, c2, height, tk);
    var rest := CleanColumns(tail, height, tk);
    if rest.Success? {
      AppendAssoc(done, [c2], rest.value.0);
    }
  }

  lemma AppendAssoc<T>(a: seq<T>, b: seq<T>, c: seq<T>)
    ensures a + b + c == a + (b + c)
  {
  }

  /** Column independence: the label-driven walk over a mutated frame
      computes exactly the column-wise reference. Columns already handled
      (`done`) sit in front; each remaining column is found by its label,
      is still as deduplication left it, and its recorded missing count is
      its own. */
  lemma {:induction false} LoopIsColumnWise<V>(done: seq<Column<V>>, rest: seq<Column<V>>, height: nat, tk: Toolkit<V>)
    requires DistinctNames(done + rest)
    ensures RunLoop(Frame(done + rest, height), NullTable(rest, height), tk)
         == Attach(done, height, CleanColumns(rest, height, tk))
    decreases |rest|
  {
    if |rest| == 0 {
      assert done + rest == done;
    } else {
      var c := rest[0];
      var tail := rest[1..];
      assert rest == [c] + tail;
      assert done + rest == done + [c] + tail;
      if Exceeds(NullCount(c.cells), height) {
        DropInPlace(done, c, tail);
        LoopIsColumnWise(done, tail, height, tk);
        LoopDropStep(done, c, tail, height, tk);
      } else {
        match Transform(c, ImputerFor(c, tk), tk)
        case Failure(e) =>
          LoopFailStep(done, c, tail, height, tk);
        case Success(c2) =>
          SetInPlace(done, c, tail, c2);
          assert done + [c2] + tail == (done + [c2]) + tail;
          LoopIsColumnWise(done + [c2], tail, height, tk);
          LoopKeepStep(done, c, tail, c2, height, tk);
      }
    }
  }

  /** The block as written equals the column-wise reference on the deduplicated frame. */
  lemma CleanIsColumnWise<V>(t: Frame<V>, tk: Toolkit<V>)
    requires WellFormed(t)
    ensures var d := DropDuplicates(t);
      Clean(t, tk) == Attach([], d.height, CleanColumns(d.columns, d.height, tk))
  {
    var d := DropDuplicates(t);
    assert d.columns == [] + d.columns;
    LoopIsColumnWise([], d.columns, d.height, tk);
  }

  /** On a frame with rows, every kept column still has a present value:
      at most 30% of its cells are missing. */
  lemma KeptColumnHasValue(nulls: nat, rows: nat)
    requires rows > 0 && !Exceeds(nulls, rows)
    ensures nulls < rows
  {
  }

  /** On a frame with rows, every column the walk keeps has a present value. */
  lemma KeptColumnsHaveValues<V>(cols: seq<Column<V>>, rows: nat, tk: Toolkit<V>)
    requires rows > 0 && forall c :: 0 <= c < |cols| ==> |cols[c].cells| == rows
    ensures forall i :: 0 <= i < |cols| && Decide(cols[i], rows, tk) != Dropped ==>
      NullCount(cols[i].cells) < |cols[i].cells|
  {
    forall i | 0 <= i < |cols| && Decide(cols[i], rows, tk) != Dropped
      ensures NullCount(cols[i].cells) < |cols[i].cells|
    {
      KeptColumnHasValue(NullCount(cols[i].cells), rows);
    }
  }

  /** Every kept column that is not an object column holds only finite values. */
  predicate KeptNumericFinite<V>(cols: seq<Column<V>>, rows: nat, tk: Toolkit<V>)
  {
    forall i :: 0 <= i < |cols| && !Exceeds(NullCount(cols[i].cells), rows) && !cols[i].isObject ==>
      AllFinite(cols[i].cells, tk.finite)
  }

  /** The block succeeds exactly when the frame has a row (or no column)
      and no kept numeric column of the deduplicated frame holds an infinite
      value. On a frame with columns but no rows sklearn refuses the first column. */
  lemma CleanSucceeds<V>(t: Frame<V>, tk: Toolkit<V>)
    requires WellFormed(t)
    ensures var d := DropDuplicates(t);
      Clean(t, tk).Success? <==> (t.height > 0 || |t.columns| == 0) && KeptNumericFinite(d.columns, d.height, tk)
    ensures t.height == 0 && |t.columns| > 0 ==> Clean(t, tk) == Failure(EmptyColumn(t.columns[0].name))
  {
    var d := DropDuplicates(t);
    CleanIsColumnWise(t, tk);
    CleanColumnsSucceeds(d.columns, d.height, tk);
    DropDuplicatesKeepsSomeRow(t);
    if t.height > 0 {
      KeptColumnsHaveValues(d.columns, d.height, tk);
    } else if |t.columns| > 0 {
      var c := d.columns[0];
      assert Names(d.columns)[0] == c.name;
      assert |c.cells| == 0 && Decide(c, 0, tk) != Dropped;
      assert Transform(c, ImputerFor(c, tk), tk) == Failure(EmptyColumn(c.name));
    }
  }

  /** Shape of a successful column-wise result: the kept columns, in
      order, each with its label, dtype flag and height and no missing cell. */
  lemma ColumnWiseShape<V>(cols: seq<Column<V>>, rows: nat, tk: Toolkit<V>)
    requires CleanColumns(cols, rows, tk).Success?
    ensures var kept := Kept(cols, rows); var out := CleanColumns(cols, rows, tk).value.0;
      && |out| == |kept|
      && forall j :: 0 <= j < |kept| ==>
           && out[j].name == kept[j].name && out[j].isObject == kept[j].isObject
           && |out[j].cells| == |kept[j].cells| && NullCount(out[j].cells) == 0
  {
    var kept := Kept(cols, rows);
    var out := CleanColumns(cols, rows, tk).value.0;
    CleanColumnsOutputs(cols, rows, tk);
    forall j | 0 <= j < |kept|
      ensures out[j].name == kept[j].name && out[j].isObject == kept[j].isObject
      ensures |out[j].cells| == |kept[j].cells| && NullCount(out[j].cells) == 0
    {
      TransformMeaning(kept[j], ImputerFor(kept[j], tk), tk);
    }
  }

  /** `out` has the length of `col`; where `col` has a value, `out` holds
      that value for an object column and its scaled value for any other. */
  ghost predicate KeepsOrScales<V>(col: Column<V>, out: Column<V>, tk: Toolkit<V>)
  {
    && |out.cells| == |col.cells|
    && forall i :: 0 <= i < |col.cells| && col.cells[i].Some? ==>
         out.cells[i] == if col.isObject then col.cells[i] else Some(tk.scale(col.cells, col.cells[i].value))
  }

  /** Labels that match a sequence with distinct labels are distinct. */
  lemma SameNamesDistinct<V>(a: seq<Column<V>>, b: seq<Column<V>>)
    requires |a| == |b| && DistinctNames(b)
    requires forall j :: 0 <= j < |b| ==> a[j].name == b[j].name
    ensures DistinctNames(a)
  {
  }

  /** A successful column-wise run over distinct labels of one height gives
      columns of that height with distinct labels. */
  lemma ColumnWiseWellFormed<V>(cols: seq<Column<V>>, rows: nat, tk: Toolkit<V>)
    requires CleanColumns(cols, rows, tk).Success?
    requires DistinctNames(cols) && forall c :: 0 <= c < |cols| ==> |cols[c].cells| == rows
    ensures var out := CleanColumns(cols, rows, tk).value.0;
      DistinctNames(out) && forall j :: 0 <= j < |out| ==> |out[j].cells| == rows
  {
    var kept := Kept(cols, rows);
    var out := CleanColumns(cols, rows, tk).value.0;
    ColumnWiseShape(cols, rows, tk);
    forall j | 0 <= j < |kept| ensures |kept[j].cells| == rows {
      var i :| 0 <= i < |cols| && cols[i] == kept[j];
    }
    SameNamesDistinct(out, kept);
  }

  /** One kept column through its imputer: present values kept or scaled by dtype. */
  lemma TransformKeepsOrScales<V>(col: Column<V>, tk: Toolkit<V>)
    requires Transform(col, ImputerFor(col, tk), tk).Success?
    ensures KeepsOrScales(col, Transform(col, ImputerFor(col, tk), tk).value, tk)
  {
    TransformMeaning(col, ImputerFor(col, tk), tk);
  }

  /** In a successful column-wise result, object columns keep their present
      cells and every other column has its present cells scaled. */
  lemma ColumnWiseCells<V>(cols: seq<Column<V>>, rows: nat, tk: Toolkit<V>)
    requires CleanColumns(cols, rows, tk).Success?
    ensures var kept := Kept(cols, rows); var out := CleanColumns(cols, rows, tk).value.0;
      |out| == |kept| && forall j :: 0 <= j < |kept| ==> KeepsOrScales(kept[j], out[j], tk)
  {
    var kept := Kept(cols, rows);
    var out := CleanColumns(cols, rows, tk).value.0;
    CleanColumnsOutputs(cols, rows, tk);
    forall j | 0 <= j < |kept| ensures KeepsOrScales(kept[j], out[j], tk) {
      TransformKeepsOrScales(kept[j], tk);
    }
  }

  /** A successful run records, for every input column in order, the
      decision computed from that column of the deduplicated frame alone. */
  lemma CleanDecisions<V>(t: Frame<V>, tk: Toolkit<V>)
    requires WellFormed(t) && Clean(t, tk).Success?
    ensures var d := DropDuplicates(t); var ds := Clean(t, tk).value.1;
      |ds| == |t.columns| && forall i :: 0 <= i < |t.columns| ==> ds[i] == Decide(d.columns[i], d.height, tk)
  {
    var d := DropDuplicates(t);
    CleanIsColumnWise(t, tk);
    CleanColumnsDecisions(d.columns, d.height, tk);
  }

  /** After a successful run the cleaned frame is well formed, as tall as
      the deduplicated one, and holds exactly the columns at most 30% missing,
      under their labels and in their order, with no missing cell. */
  lemma CleanShape<V>(t: Frame<V>, tk: Toolkit<V>)
    requires WellFormed(t) && Clean(t, tk).Success?
    ensures var d := DropDuplicates(t); var kept := Kept(d.columns, d.height);
      var out := Clean(t, tk).value.0;
      && WellFormed(out) && out.height == d.height && |out.columns| == |kept|
      && (forall j :: 0 <= j < |kept| ==> out.columns[j].name == kept[j].name)
      && (forall j :: 0 <= j < |kept| ==> out.columns[j].isObject == kept[j].isObject)
      && (forall j :: 0 <= j < |kept| ==> NullCount(out.columns[j].cells) == 0)
  {
    var d := DropDuplicates(t);
    CleanIsColumnWise(t, tk);
    var kept := Kept(d.columns, d.height);
    var out := Clean(t, tk).value.0;
    assert out.columns == CleanColumns(d.columns, d.height, tk).value.0;
    ColumnWiseShape(d.columns, d.height, tk);
    ColumnWiseWellFormed(d.columns, d.height, tk);
  }

  /** After a successful run, object columns come out with their present
      cells unchanged and every other column with its present cells
      robust-scaled. */
  lemma CleanPresentCells<V>(t: Frame<V>, tk: Toolkit<V>)
    requires WellFormed(t) && Clean(t, tk).Success?
    ensures var d := DropDuplicates(t); var kept := Kept(d.columns, d.height);
      var out := Clean(t, tk).value.0;
      |out.columns| == |kept| && forall j :: 0 <= j < |kept| ==> KeepsOrScales(kept[j], out.columns[j], tk)
  {
    var d := DropDuplicates(t);
    CleanIsColumnWise(t, tk);
    assert Clean(t, tk).value.0.columns == CleanColumns(d.columns, d.height, tk).value.0;
    ColumnWiseCells(d.columns, d.height, tk);
  }

  /** The value a missing cell of `col` receives: for an object column the
      one `most_frequent` statistic of its present values (a mode, ties
      broken by `tk.less`); for any other column the median of the scaled
      present values when the detector reports outliers, else their mean. */
  ghost predicate FilledAsPrescribed<V>(col: Column<V>, v: V, tk: Toolkit<V>)
  {
    if col.isObject then |Present(col.cells)| > 0 && v == MostFrequentValue(Present(col.cells), tk.less)
    else
      var scaled := Apply(Present(col.cells), x => tk.scale(col.cells, x));
      v == if |tk.outliers(col.cells)| > 0 then tk.median(scaled) else tk.mean(scaled)
  }

  /** `out` is `col` with every missing cell filled as prescribed. */
  ghost predicate FillsMissing<V>(col: Column<V>, out: Column<V>, tk: Toolkit<V>)
  {
    && |out.cells| == |col.cells|
    && forall i :: 0 <= i < |col.cells| && col.cells[i].None? ==>
         out.cells[i].Some? && FilledAsPrescribed(col, out.cells[i].value, tk)
  }

  /** The prescribed value is one value per column, so a column filled as
      prescribed has the same value in every cell that was missing. */
  lemma FillsMissingOneValue<V>(col: Column<V>, out: Column<V>, tk: Toolkit<V>)
    requires FillsMissing(col, out, tk)
    ensures forall i, j :: 0 <= i < |col.cells| && 0 <= j < |col.cells| && col.cells[i].None? && col.cells[j].None? ==>
      out.cells[i] == out.cells[j]
  {
  }

  lemma TransformFills<V>(col: Column<V>, tk: Toolkit<V>)
    requires Transform(col, ImputerFor(col, tk), tk).Success?
    ensures FillsMissing(col, Transform(col, ImputerFor(col, tk), tk).value, tk)
  {
  }

  lemma ColumnWiseFills<V>(cols: seq<Column<V>>, rows: nat, tk: Toolkit<V>)
    requires CleanColumns(cols, rows, tk).Success?
    ensures var kept := Kept(cols, rows); var out := CleanColumns(cols, rows, tk).value.0;
      |out| == |kept| && forall j :: 0 <= j < |kept| ==> FillsMissing(kept[j], out[j], tk)
  {
    var kept := Kept(cols, rows);
    var out := CleanColumns(cols, rows, tk).value.0;
    CleanColumnsMeaning(cols, rows, tk);
    forall j | 0 <= j < |kept| ensures FillsMissing(kept[j], out[j], tk) {
      TransformFills(kept[j], tk);
    }
  }

  /** Every missing cell of a kept column is filled by the statistic its
      dtype and outlier list select. */
  lemma CleanFillsMissing<V>(t: Frame<V>, tk: Toolkit<V>)
    requires WellFormed(t) && Clean(t, tk).Success?
    ensures var d := DropDuplicates(t); var kept := Kept(d.columns, d.height);
      var out := Clean(t, tk).value.0;
      |out.columns| == |kept| && forall j :: 0 <= j < |kept| ==> FillsMissing(kept[j], out.columns[j], tk)
  {
    var d := DropDuplicates(t);
    CleanIsColumnWise(t, tk);
    assert Clean(t, tk).value.0.columns == CleanColumns(d.columns, d.height, tk).value.0;
    ColumnWiseFills(d.columns, d.height, tk);
  }

  /** Results of two column-wise runs side by side: the first failure wins. */
  function Concat<V>(r1: Result<(seq<Column<V>>, seq<Decision>)>, r2: Result<(seq<Column<V>>, seq<Decision>)>)
    : Result<(seq<Column<V>>, seq<Decision>)>
  {
    match r1
    case Failure(e) => Failure(e)
    case Success(p) =>
      match r2
      case Failure(e) => Failure(e)
      case Success(q) => Success((p.0 + q.0, p.1 + q.1))
  }

  lemma CleanColumnsCons<V>(c: Column<V>, tail: seq<Column<V>>, rows: nat, tk: Toolkit<V>)
    ensures CleanColumns([c] + tail, rows, tk)
         == Concat(CleanColumns([c], rows, tk), CleanColumns(tail, rows, tk))
  {
    var d := Decide(c, rows, tk);
    var rest := CleanColumns(tail, rows, tk);
    var one := CleanColumns([c], rows, tk);
    var both := CleanColumns([c] + tail, rows, tk);
    assert ([c] + tail)[0] == c && ([c] + tail)[1..] == tail;
    assert [c][0] == c && [c][1..] == [];
    assert CleanColumns([c][1..], rows, tk) == Success(([], []));
    if d == Dropped {
      assert [Dropped] + [] == [Dropped];
      assert one == Success(([], [Dropped]));
      assert both == Prepend(Dropped, rest);
      if rest.Success? {
        assert [] + rest.value.0 == rest.value.0;
      }
    } else {
      match Transform(c, d, tk)
      case Failure(e) =>
        assert one == Failure(e) && both == Failure(e);
      case Success(c') =>
        assert [c'] + [] == [c'] && [d] + [] == [d];
        assert one == Success(([c'], [d]));
    }
  }

  lemma ConcatAssoc<V>(x: Result<(seq<Column<V>>, seq<Decision>)>, y: Result<(seq<Column<V>>, seq<Decision>)>,
                      z: Result<(seq<Column<V>>, seq<Decision>)>)
    ensures Concat(Concat(x, y), z) == Concat(x, Concat(y, z))
  {
    if x.Success? && y.Success? && z.Success? {
      AppendAssoc(x.value.0, y.value.0, z.value.0);
      AppendAssoc(x.value.1, y.value.1, z.value.1);
    }
  }

  lemma ConcatEmpty<V>(x: Result<(seq<Column<V>>, seq<Decision>)>)
    ensures Concat(Success(([], [])), x) == x
  {
    if x.Success? {
      assert [] + x.value.0 == x.value.0;
      assert [] + x.value.1 == x.value.1;
    }
  }

  /** Splitting the columns into two frames and cleaning each gives the same
      columns and decisions as cleaning them together. */
  lemma {:induction false} CleanColumnsAppend<V>(a: seq<Column<V>>, b: seq<Column<V>>, rows: nat, tk: Toolkit<V>)
    ensures CleanColumns(a + b, rows, tk) == Concat(CleanColumns(a, rows, tk), CleanColumns(b, rows, tk))
    decreases |a|
  {
    if |a| == 0 {
      assert a + b == b;
      ConcatEmpty(CleanColumns(b, rows, tk));
    } else {
      var c := a[0];
      var tail := a[1..];
      assert a == [c] + tail;
      assert a + b == [c] + (tail + b);
      var head := CleanColumns([c], rows, tk);
      var rt := CleanColumns(tail, rows, tk);
      var rb := CleanColumns(b, rows, tk);
      CleanColumnsCons(c, tail + b, rows, tk);
      CleanColumnsAppend(tail, b, rows, tk);
      ConcatAssoc(head, rt, rb);
      CleanColumnsCons(c, tail, rows, tk);
    }
  }
}

=== FILE: dedup.dfy ===
/** `df.drop_duplicates()`: a row is kept when no earlier row equals it
    cell for cell. Two missing cells count as equal, as they do in pandas. */
module Dedup {
  import opened Frames

  /** Row `i` of a frame, one cell per column. */
  function Row<V>(t: Frame<V>, i: nat): (r: seq<Option<V>>)
    requires Rectangular(t) && i < t.height
    ensures |r| == |t.columns|
  {
    seq(|t.columns|, c requires 0 <= c < |t.columns| => t.columns[c].cells[i])
  }

  /** No earlier row equals row `i`. */
  predicate IsFirst<V(==)>(t: Frame<V>, i: nat)
    requires Rectangular(t) && i < t.height
  {
    forall j | 0 <= j < i :: Row(t, j) != Row(t, i)
  }

  ghost predicate RowsDistinct<V>(t: Frame<V>)
    requires Rectangular(t)
  {
    forall k, l :: 0 <= k < l < t.height ==> Row(t, k) != Row(t, l)
  }

  /** Indices, in increasing order, of the first occurrences among rows `0..n`. */
  function FirstRows<V(==)>(t: Frame<V>, n: nat): (idx: seq<nat>)
    requires Rectangular(t) && n <= t.height
    ensures |idx| <= n
    ensures forall k :: 0 <= k < |idx| ==> idx[k] < n && IsFirst(t, idx[k])
    ensures forall k, l :: 0 <= k < l < |idx| ==> idx[k] < idx[l]
    ensures forall i :: 0 <= i < n && IsFirst(t, i) ==> i in idx
    decreases n
  {
    if n == 0 then []
    else
      var idx := FirstRows(t, n - 1);
      if IsFirst(t, n - 1) then idx + [n - 1] else idx
  }

  /** The cells at the given row indices, in that order. */
  function Select<V>(cells: seq<Option<V>>, idx: seq<nat>): (r: seq<Option<V>>)
    requires forall k :: 0 <= k < |idx| ==> idx[k] < |cells|
    ensures |r| == |idx|
  {
    seq(|idx|, k requires 0 <= k < |idx| => cells[idx[k]])
  }

  /** The frame restricted to the rows at `idx`. */
  function SelectRows<V>(t: Frame<V>, idx: seq<nat>): (d: Frame<V>)
    requires Rectangular(t)
    requires forall k :: 0 <= k < |idx| ==> idx[k] < t.height
    ensures Rectangular(d) && d.height == |idx| && |d.columns| == |t.columns|
    ensures forall c :: 0 <= c < |t.columns| ==>
              d.columns[c].name == t.columns[c].name && d.columns[c].isObject == t.columns[c].isObject
  {
    Frame(seq(|t.columns|, c requires 0 <= c < |t.columns| =>
            t.columns[c].(cells := Select(t.columns[c].cells, idx))),
          |idx|)
  }

  lemma RowOfSelected<V>(t: Frame<V>, idx: seq<nat>, k: nat)
    requires Rectangular(t)
    requires forall j :: 0 <= j < |idx| ==> idx[j] < t.height
    requires k < |idx|
    ensures Row(SelectRows(t, idx), k) == Row(t, idx[k])
  {
  }

  function DropDuplicates<V(==)>(t: Frame<V>): (d: Frame<V>)
    requires Rectangular(t)
    ensures Rectangular(d) && d.height <= t.height
    ensures Names(d.columns) == Names(t.columns) && DistinctNames(d.columns) == DistinctNames(t.columns)
    ensures forall c :: 0 <= c < |t.columns| ==> d.columns[c].isObject == t.columns[c].isObject
  {
    SelectRows(t, FirstRows(t, t.height))
  }

  /** Every row of the result is a first occurrence in the input, taken in input order. */
  lemma DropDuplicatesKeepsFirstsInOrder<V>(t: Frame<V>)
    requires Rectangular(t)
    ensures var d := DropDuplicates(t); var idx := FirstRows(t, t.height);
      && d.height == |idx|
      && (forall k :: 0 <= k < d.height ==> idx[k] < t.height && IsFirst(t, idx[k]) && Row(d, k) == Row(t, idx[k]))
      && (forall k, l :: 0 <= k < l < d.height ==> idx[k] < idx[l])
  {
    var idx := FirstRows(t, t.height);
    forall k | 0 <= k < |idx| ensures Row(DropDuplicates(t), k) == Row(t, idx[k]) {
      RowOfSelected(t, idx, k);
    }
  }

  /** After deduplication no two rows are equal. */
  lemma DropDuplicatesRowsDistinct<V>(t: Frame<V>)
    requires Rectangular(t)
    ensures RowsDistinct(DropDuplicates(t))
  {
    var d := DropDuplicates(t);
    var idx := FirstRows(t, t.height);
    DropDuplicatesKeepsFirstsInOrder(t);
    forall k, l | 0 <= k < l < d.height ensures Row(d, k) != Row(d, l) {
      assert idx[k] < idx[l] && IsFirst(t, idx[l]);
    }
  }

  /** Every row of the input is the first occurrence of its value or repeats an earlier one. */
  lemma {:induction false} FirstOccurrence<V>(t: Frame<V>, i: nat) returns (j: nat)
    requires Rectangular(t) && i < t.height
    ensures j <= i && IsFirst(t, j) && Row(t, j) == Row(t, i)
    decreases i
  {
    if IsFirst(t, i) {
      j := i;
    } else {
      var j' :| 0 <= j' < i && Row(t, j') == Row(t, i);
      j := FirstOccurrence(t, j');
    }
  }

  /** Deduplication loses no row value: each input row still occurs in the result. */
  lemma DropDuplicatesKeepsEveryRowValue<V>(t: Frame<V>, i: nat)
    requires Rectangular(t) && i < t.height
    ensures exists k :: 0 <= k < DropDuplicates(t).height && Row(DropDuplicates(t), k) == Row(t, i)
  {
    var idx := FirstRows(t, t.height);
    var j := FirstOccurrence(t, i);
    assert j in idx;
    var k :| 0 <= k < |idx| && idx[k] == j;
    DropDuplicatesKeepsFirstsInOrder(t);
    assert Row(DropDuplicates(t), k) == Row(t, i);
  }

  lemma {:induction false} FirstRowsOfDistinct<V>(t: Frame<V>, n: nat)
    requires Rectangular(t) && n <= t.height && RowsDistinct(t)
    ensures FirstRows(t, n) == seq(n, i => i)
    decreases n
  {
    if n > 0 {
      FirstRowsOfDistinct(t, n - 1);
      assert IsFirst(t, n - 1);
      assert seq(n, i => i) == seq(n - 1, i => i) + [n - 1];
    }
  }

  /** A frame whose rows are already distinct is left as it is. */
  lemma DropDuplicatesOfDistinct<V>(t: Frame<V>)
    requires Rectangular(t) && RowsDistinct(t)
    ensures DropDuplicates(t) == t
  {
    FirstRowsOfDistinct(t, t.height);
    var d := DropDuplicates(t);
    forall c | 0 <= c < |t.columns| ensures d.columns[c] == t.columns[c] {
      assert d.columns[c].cells == t.columns[c].cells;
    }
    assert d.columns == t.columns;
  }

  /** Deduplicating twice is the same as deduplicating once. */
  lemma DropDuplicatesIdempotent<V>(t: Frame<V>)
    requires Rectangular(t)
    ensures DropDuplicates(DropDuplicates(t)) == DropDuplicates(t)
  {
    DropDuplicatesRowsDistinct(t);
    DropDuplicatesOfDistinct(DropDuplicates(t));
  }

  /** Deduplication empties a frame only when it was empty. */
  lemma DropDuplicatesKeepsSomeRow<V>(t: Frame<V>)
    requires Rectangular(t)
    ensures DropDuplicates(t).height == 0 <==> t.height == 0
  {
    if t.height > 0 {
      DropDuplicatesKeepsEveryRowValue(t, 0);
    }
  }
}

=== FILE: frames.dfy ===
/** Tables as pandas holds them once a CSV file has been read: an ordered
    sequence of labelled columns of one common height, each cell either a
    value or missing (NaN). The cell type `V` is left abstract. */
module Frames {

  datatype Option<+T> = None | Some(value: T)

  /** One column: its label, whether pandas gave it the `object` dtype, and its cells. */
  datatype Column<V> = Column(name: string, isObject: bool, cells: seq<Option<V>>)

  /** A data frame: its columns in order and its number of rows. */
  datatype Frame<V> = Frame(columns: seq<Column<V>>, height: nat)

  /** The ways the cleaning block can raise. */
  datatype Error =
    | MissingKey(name: string)   // pandas raises KeyError for a label the frame does not hold
    | EmptyColumn(name: string)  // sklearn refuses an input with zero samples
    | AllMissing(name: string)   // SimpleImputer drops an all-missing feature; assigning its empty output back fails
    | NotFinite(name: string)    // sklearn's input check refuses infinity in a numeric column

  datatype Result<+T> = Success(value: T) | Failure(error: Error)

  function Names<V>(cols: seq<Column<V>>): seq<string>
  {
    seq(|cols|, i requires 0 <= i < |cols| => cols[i].name)
  }

  predicate HasName<V>(cols: seq<Column<V>>, key: string)
  {
    exists i | 0 <= i < |cols| :: cols[i].name == key
  }

  /** No label occurs twice (pandas' CSV reader renames repeated headers). */
  predicate DistinctNames<V>(cols: seq<Column<V>>)
  {
    forall i, j :: 0 <= i < j < |cols| ==> cols[i].name != cols[j].name
  }

  predicate Rectangular<V>(t: Frame<V>)
  {
    forall c :: 0 <= c < |t.columns| ==> |t.columns[c].cells| == t.height
  }

  predicate WellFormed<V>(t: Frame<V>)
  {
    Rectangular(t) && DistinctNames(t.columns)
  }

  /** Number of missing cells: what `df.isna().sum()` reports for one column. */
  function NullCount<V>(cells: seq<Option<V>>): (n: nat)
    ensures n <= |cells|
    ensures n == 0 <==> forall i :: 0 <= i < |cells| ==> cells[i].Some?
    ensures n == |cells| <==> forall i :: 0 <= i < |cells| ==> cells[i].None?
  {
    if |cells| == 0 then 0
    else
      var rest := NullCount(cells[1..]);
      assert forall i :: 1 <= i < |cells| ==> cells[i] == cells[1..][i - 1];
      (if cells[0].None? then 1 else 0) + rest
  }

  /** `NullCount` is the number of missing cells: the multiplicity of `None`
      among the cells. */
  lemma {:induction false} NullCountIsMissingCells<V>(cells: seq<Option<V>>)
    ensures NullCount(cells) == multiset(cells)[None]
    decreases |cells|
  {
    if |cells| > 0 {
      NullCountIsMissingCells(cells[1..]);
      assert cells == [cells[0]] + cells[1..];
    }
  }

  /** The non-missing values of a column, in row order. */
  function Present<V>(cells: seq<Option<V>>): (p: seq<V>)
    ensures |p| == |cells| - NullCount(cells)
  {
    if |cells| == 0 then []
    else (if cells[0].Some? then [cells[0].value] else []) + Present(cells[1..])
  }

  /** Position of the first column carrying `key`. */
  function IndexOf<V>(cols: seq<Column<V>>, key: string): (i: nat)
    requires HasName(cols, key)
    ensures i < |cols| && cols[i].name == key
    ensures forall j :: 0 <= j < i ==> cols[j].name != key
    decreases |cols|
  {
    if cols[0].name == key then 0
    else
      var k :| 0 <= k < |cols| && cols[k].name == key;
      assert cols[1..][k - 1].name == key;
      1 + IndexOf(cols[1..], key)
  }

  /** `df[key]`: the column carrying `key`. */
  function Lookup<V>(cols: seq<Column<V>>, key: string): (c: Column<V>)
    requires HasName(cols, key)
    ensures c.name == key && c in cols
    ensures DistinctNames(cols) ==> forall i :: 0 <= i < |cols| && cols[i].name == key ==> c == cols[i]
  {
    cols[IndexOf(cols, key)]
  }

  /** `df.drop(key, axis=1)`: removes every column labelled `key`. */
  function DropColumn<V>(cols: seq<Column<V>>, key: string): (r: seq<Column<V>>)
    ensures |r| <= |cols|
    decreases |cols|
  {
    if |cols| == 0 then []
    else
      var rest := DropColumn(cols[1..], key);
      if cols[0].name == key then rest else [cols[0]] + rest
  }

  lemma {:induction false} DropAbsentColumn<V>(cols: seq<Column<V>>, key: string)
    requires !HasName(cols, key)
    ensures DropColumn(cols, key) == cols
    decreases |cols|
  {
    if |cols| > 0 {
      assert !HasName(cols[1..], key) by {
        forall i | 0 <= i < |cols[1..]| ensures cols[1..][i].name != key {
          assert cols[1..][i] == cols[i + 1];
        }
      }
      DropAbsentColumn(cols[1..], key);
      assert cols == [cols[0]] + cols[1..];
    }
  }

  /** Dropping a label removes that label and keeps every other. */
  lemma {:induction false} DropColumnLabels<V>(cols: seq<Column<V>>, key: string)
    ensures forall n :: HasName(DropColumn(cols, key), n) <==> HasName(cols, n) && n != key
    decreases |cols|
  {
    if |cols| > 0 {
      var tail := cols[1..];
      var rest := DropColumn(tail, key);
      DropColumnLabels(tail, key);
      forall n ensures HasName(DropColumn(cols, key), n) <==> HasName(cols, n) && n != key {
        var r := DropColumn(cols, key);
        if HasName(tail, n) {
          var k :| 0 <= k < |tail| && tail[k].name == n;
          assert cols[k + 1].name == n;
        }
        if HasName(rest, n) && cols[0].name != key {
          var k :| 0 <= k < |rest| && rest[k].name == n;
          assert r[k + 1].name == n;
        }
        if HasName(cols, n) && n != key {
          var i :| 0 <= i < |cols| && cols[i].name == n;
          if i > 0 {
            assert tail[i - 1].name == n;
          } else {
            assert r[0].name == n;
          }
        }
        if HasName(r, n) && cols[0].name != key {
          var i :| 0 <= i < |r| && r[i].name == n;
          if i > 0 {
            assert rest[i - 1].name == n;
          }
        }
      }
    }
  }

  /** Dropping a label keeps the remaining labels distinct. */
  lemma {:induction false} DropColumnDistinct<V>(cols: seq<Column<V>>, key: string)
    requires DistinctNames(cols)
    ensures DistinctNames(DropColumn(cols, key))
    decreases |cols|
  {
    if |cols| > 0 {
      var tail := cols[1..];
      var rest := DropColumn(tail, key);
      assert DistinctNames(tail) by {
        assert forall i :: 0 <= i < |tail| ==> tail[i] == cols[i + 1];
      }
      DropColumnDistinct(tail, key);
      if cols[0].name != key {
        DropColumnLabels(tail, key);
        var r := [cols[0]] + rest;
        forall i, j | 0 <= i < j < |r| ensures r[i].name != r[j].name {
          if i == 0 {
            assert HasName(rest, r[j].name) by { assert rest[j - 1] == r[j]; }
            var k :| 0 <= k < |tail| && tail[k].name == r[j].name;
            assert cols[k + 1].name == r[j].name;
          } else {
            assert r[i] == rest[i - 1] && r[j] == rest[j - 1];
          }
        }
      }
    }
  }

  /** With distinct labels, dropping the label of column `i` leaves the
      columns before and after it, in order. */
  lemma {:induction false} DropColumnSplits<V>(cols: seq<Column<V>>, key: string, i: nat)
    requires DistinctNames(cols) && i < |cols| && cols[i].name == key
    ensures DropColumn(cols, key) == cols[..i] + cols[i + 1..]
    decreases |cols|
  {
    var tail := cols[1..];
    var rest := DropColumn(tail, key);
    assert forall k :: 0 <= k < |tail| ==> tail[k] == cols[k + 1];
    if i == 0 {
      assert !HasName(tail, key);
      DropAbsentColumn(tail, key);
    } else {
      assert DistinctNames(tail);
      DropColumnSplits(tail, key, i - 1);
      assert cols[..i] == [cols[0]] + tail[..i - 1];
      assert cols[i + 1..] == tail[i..];
    }
  }

  /** Dropping a label removes exactly the columns carrying it; with distinct
      labels that is one column, and the others keep their relative order. */
  lemma DropColumnRemovesOnlyIt<V>(cols: seq<Column<V>>, key: string)
    ensures forall n :: HasName(DropColumn(cols, key), n) <==> HasName(cols, n) && n != key
    ensures DistinctNames(cols) ==> DistinctNames(DropColumn(cols, key))
    ensures forall i :: 0 <= i < |cols| && cols[i].name == key && DistinctNames(cols) ==>
              DropColumn(cols, key) == cols[..i] + cols[i + 1..]
  {
    DropColumnLabels(cols, key);
    if DistinctNames(cols) {
      DropColumnDistinct(cols, key);
      forall i | 0 <= i < |cols| && cols[i].name == key
        ensures DropColumn(cols, key) == cols[..i] + cols[i + 1..]
      {
        DropColumnSplits(cols, key, i);
      }
    }
  }

  /** `df[key] = cells`: replaces the cells of the column labelled `key`
      where it stands; its label and dtype flag stay. */
  function SetCells<V>(cols: seq<Column<V>>, key: string, cells: seq<Option<V>>): (r: seq<Column<V>>)
    ensures Names(r) == Names(cols)
  {
    seq(|cols|, i requires 0 <= i < |cols| =>
      if cols[i].name == key then cols[i].(cells := cells) else cols[i])
  }

  /** Two column sequences with the same labels find every label at the same position. */
  lemma IndexOfSameNames<V>(a: seq<Column<V>>, b: seq<Column<V>>, key: string)
    requires Names(a) == Names(b) && HasName(a, key)
    ensures HasName(b, key) && IndexOf(b, key) == IndexOf(a, key)
  {
    var i := IndexOf(a, key);
    assert |a| == |Names(a)| == |Names(b)| == |b|;
    assert forall k :: 0 <= k < |a| ==> a[k].name == Names(a)[k] == Names(b)[k] == b[k].name;
  }

  /** Reading after `df[key] = cells`: the label `key` now reads the new
      cells under its old dtype flag, every other label reads what it read
      before, and the labels (hence their distinctness) are unchanged. */
  lemma SetCellsLookup<V>(cols: seq<Column<V>>, key: string, cells: seq<Option<V>>)
    ensures var r := SetCells(cols, key, cells);
      forall k :: HasName(r, k) <==> HasName(cols, k)
    ensures DistinctNames(SetCells(cols, key, cells)) <==> DistinctNames(cols)
    ensures HasName(cols, key) ==>
      Lookup(SetCells(cols, key, cells), key) == Lookup(cols, key).(cells := cells)
    ensures forall k :: k != key && HasName(cols, k) ==>
      Lookup(SetCells(cols, key, cells), k) == Lookup(cols, k)
  {
    var r := SetCells(cols, key, cells);
    assert forall k :: 0 <= k < |cols| ==> r[k].name == Names(r)[k] == Names(cols)[k] == cols[k].name;
    forall k | HasName(cols, k) ensures HasName(r, k) && IndexOf(r, k) == IndexOf(cols, k) {
      IndexOfSameNames(cols, r, k);
    }
  }
}

=== FILE: impute.dfy ===
/** The two per-column transforms the cleaning block applies to a kept
    column: sklearn's `SimpleImputer` (most frequent, median or mean) and
    `RobustScaler`. The numerics are left abstract in a `Toolkit`; what is
    modelled is which cells each transform touches and which statistic
    fills a missing cell. */
module Impute {
  import opened Frames

  /** What the cleaning block calls but whose arithmetic is not modelled. */
  datatype Toolkit<!V> = Toolkit(
    outliers: seq<Option<V>> -> seq<V>,   // `mm.detect_outliers_iqr(df[key]).tolist()`
    scale: (seq<Option<V>>, V) -> V,      // `RobustScaler` fitted on the column, applied to one value
    median: seq<V> -> V,                  // median of the non-missing values
    mean: seq<V> -> V,                    // mean of the non-missing values
    less: (V, V) -> bool,                 // the ordering `most_frequent` uses to pick among tied values
    finite: V -> bool)                    // false for an infinite value, which `RobustScaler` refuses

  /** Every present cell holds a finite value (missing cells are allowed). */
  predicate AllFinite<V>(cells: seq<Option<V>>, finite: V -> bool)
  {
    forall i :: 0 <= i < |cells| && cells[i].Some? ==> finite(cells[i].value)
  }

  /** Missing cells take `fill`; present cells stay. */
  function Fill<V>(cells: seq<Option<V>>, fill: V): (r: seq<Option<V>>)
    ensures |r| == |cells| && NullCount(r) == 0
    ensures forall i :: 0 <= i < |cells| && cells[i].Some? ==> r[i] == cells[i]
    ensures forall i :: 0 <= i < |cells| && cells[i].None? ==> r[i] == Some(fill)
  {
    seq(|cells|, i requires 0 <= i < |cells| => if cells[i].Some? then cells[i] else Some(fill))
  }

  /** Present cells are mapped through `f`; missing cells stay missing, as
      `RobustScaler.transform` passes NaN through. */
  function MapPresent<V>(cells: seq<Option<V>>, f: V -> V): (r: seq<Option<V>>)
    ensures |r| == |cells|
    ensures forall i :: 0 <= i < |cells| ==> r[i].Some? == cells[i].Some?
  {
    seq(|cells|, i requires 0 <= i < |cells| =>
      match cells[i]
      case Some(v) => Some(f(v))
      case None => None)
  }

  /** The values the fitted scaler produces are the scaled present values, in order. */
  lemma {:induction false} PresentOfMapped<V>(cells: seq<Option<V>>, f: V -> V)
    ensures Present(MapPresent(cells, f)) == Apply(Present(cells), f)
    decreases |cells|
  {
    if |cells| > 0 {
      PresentOfMapped(cells[1..], f);
      assert MapPresent(cells, f)[1..] == MapPresent(cells[1..], f);
      var rest := Present(cells[1..]);
      if cells[0].Some? {
        assert Present(cells) == [cells[0].value] + rest;
        assert ([cells[0].value] + rest)[1..] == rest;
      } else {
        assert Present(cells) == rest;
      }
    }
  }

  function Apply<V>(xs: seq<V>, f: V -> V): (r: seq<V>)
    ensures |r| == |xs|
  {
    if |xs| == 0 then [] else [f(xs[0])] + Apply(xs[1..], f)
  }

  function Count<V(==)>(xs: seq<V>, x: V): nat
  {
    multiset(xs)[x]
  }

  /** `v` occurs in `xs` and no value occurs more often. */
  ghost predicate IsMode<V>(xs: seq<V>, v: V)
  {
    v in xs && forall x :: x in xs ==> Count(xs, x) <= Count(xs, v)
  }

  ghost predicate StrictTotalOrder<V(!new)>(less: (V, V) -> bool)
  {
    && (forall x :: !less(x, x))
    && (forall x, y, z :: less(x, y) && less(y, z) ==> less(x, z))
    && (forall x, y :: x != y ==> less(x, y) || less(y, x))
  }

  /** The best candidate among `xs[..k]`: highest count, and among equal
      counts the one `less` puts first. */
  function PickMode<V(==)>(xs: seq<V>, less: (V, V) -> bool, k: nat): (r: V)
    requires 0 < k <= |xs|
    ensures r in xs[..k]
    ensures forall j :: 0 <= j < k ==> Count(xs, xs[j]) <= Count(xs, r)
    decreases k
  {
    if k == 1 then xs[0]
    else
      var best := PickMode(xs, less, k - 1);
      var x := xs[k - 1];
      assert xs[..k] == xs[..k - 1] + [x];
      if Count(xs, x) > Count(xs, best) || (Count(xs, x) == Count(xs, best) && less(x, best)) then x
      else best
  }

  /** The statistic of `SimpleImputer(strategy='most_frequent')`. */
  function MostFrequentValue<V(==)>(xs: seq<V>, less: (V, V) -> bool): (r: V)
    requires |xs| > 0
    ensures IsMode(xs, r)
  {
    var r := PickMode(xs, less, |xs|);
    assert xs[..|xs|] == xs;
    r
  }

  lemma {:induction false} PickModeTieBreak<V(!new)>(xs: seq<V>, less: (V, V) -> bool, k: nat)
    requires 0 < k <= |xs| && StrictTotalOrder(less)
    ensures var r := PickMode(xs, less, k);
      forall j :: 0 <= j < k && Count(xs, xs[j]) == Count(xs, r) ==> xs[j] == r || less(r, xs[j])
    decreases k
  {
    if k > 1 {
      PickModeTieBreak(xs, less, k - 1);
    }
  }

  /** Among several values of maximal count the one chosen comes first under
      `less`, as sklearn takes the smallest of the tied values. */
  lemma MostFrequentBreaksTiesBySmallest<V(!new)>(xs: seq<V>, less: (V, V) -> bool, m: V)
    requires |xs| > 0 && StrictTotalOrder(less) && IsMode(xs, m)
    ensures m == MostFrequentValue(xs, less) || less(MostFrequentValue(xs, less), m)
  {
    var r := MostFrequentValue(xs, less);
    PickModeTieBreak(xs, less, |xs|);
    assert xs[..|xs|] == xs;
    var j :| 0 <= j < |xs| && xs[j] == m;
  }

  /** `SimpleImputer(strategy='most_frequent').fit_transform(df[[key]])` on
      an `object` column: no scaling, missing cells take a most frequent
      present value. */
  function ImputeMostFrequent<V(==)>(col: Column<V>, less: (V, V) -> bool): (r: Result<Column<V>>)
    ensures |col.cells| == 0 ==> r == Failure(EmptyColumn(col.name))
    ensures 0 < |col.cells| == NullCount(col.cells) ==> r == Failure(AllMissing(col.name))
    ensures r.Success? <==> NullCount(col.cells) < |col.cells|
    ensures r.Success? ==>
      && r.value.name == col.name && r.value.isObject == col.isObject
      && |r.value.cells| == |col.cells| && NullCount(r.value.cells) == 0
      && (forall i :: 0 <= i < |col.cells| && col.cells[i].Some? ==> r.value.cells[i] == col.cells[i])
      && (forall i :: 0 <= i < |col.cells| && col.cells[i].None? ==>
            r.value.cells[i].Some? && IsMode(Present(col.cells), r.value.cells[i].value))
      && (forall i, j :: 0 <= i < |col.cells| && 0 <= j < |col.cells| && col.cells[i].None? && col.cells[j].None? ==>
            r.value.cells[i] == r.value.cells[j])
  {
    if |col.cells| == 0 then Failure(EmptyColumn(col.name))
    else if NullCount(col.cells) == |col.cells| then Failure(AllMissing(col.name))
    else Success(col.(cells := Fill(col.cells, MostFrequentValue(Present(col.cells), less))))
  }

  /** When one present value occurs strictly more often than every other,
      every missing cell takes that value, whatever the tie-break order. */
  lemma UniqueModeFills<V>(col: Column<V>, less: (V, V) -> bool, v: V)
    requires v in Present(col.cells)
    requires forall x :: x in Present(col.cells) && x != v ==>
               Count(Present(col.cells), x) < Count(Present(col.cells), v)
    ensures ImputeMostFrequent(col, less).Success?
    ensures forall i :: 0 <= i < |col.cells| && col.cells[i].None? ==>
              ImputeMostFrequent(col, less).value.cells[i] == Some(v)
  {
  }

  /** The numeric branch as written: `RobustScaler().fit_transform` first,
      then a median (`useMedian`) or mean `SimpleImputer` fitted on the
      already scaled column. The scaler's input check lets missing values
      through but refuses an infinite one. */
  function ScaleThenImpute<V>(col: Column<V>, useMedian: bool, tk: Toolkit<V>): (r: Result<Column<V>>)
    ensures |col.cells| == 0 ==> r == Failure(EmptyColumn(col.name))
    ensures 0 < |col.cells| && !AllFinite(col.cells, tk.finite) ==> r == Failure(NotFinite(col.name))
    ensures 0 < |col.cells| == NullCount(col.cells) ==> r == Failure(AllMissing(col.name))
    ensures r.Success? <==> NullCount(col.cells) < |col.cells| && AllFinite(col.cells, tk.finite)
    ensures r.Success? ==>
      && r.value.name == col.name && r.value.isObject == col.isObject
      && |r.value.cells| == |col.cells| && NullCount(r.value.cells) == 0
      && (forall i :: 0 <= i < |col.cells| && col.cells[i].Some? ==>
            r.value.cells[i] == Some(tk.scale(col.cells, col.cells[i].value)))
      && (forall i :: 0 <= i < |col.cells| && col.cells[i].None? ==>
            var scaled := Apply(Present(col.cells), v => tk.scale(col.cells, v));
            r.value.cells[i] == Some(if useMedian then tk.median(scaled) else tk.mean(scaled)))
  {
    if |col.cells| == 0 then Failure(EmptyColumn(col.name))
    else if !AllFinite(col.cells, tk.finite) then Failure(NotFinite(col.name))
    else
      var f := v => tk.scale(col.cells, v);
      var scaled := MapPresent(col.cells, f);
      if NullCount(scaled) == |scaled| then Failure(AllMissing(col.name))
      else
        var stats := Present(scaled);
        PresentOfMapped(col.cells, f);
        var fill := if useMedian then tk.median(stats) else tk.mean(stats);
        Success(col.(cells := Fill(scaled, fill)))
  }
}

=== FILE: scenarios.dfy ===
/** Deduplication happens before any column is dropped or filled, so the
    cleaned frame is not free of repeated rows. */
module Scenarios {
  import opened Frames
  import opened Dedup
  import opened Impute
  import opened Cleaning

  /** A one-column frame whose first two cells agree has equal rows 0 and 1. */
  lemma SingleColumnRows<V>(out: Frame<V>)
    requires Rectangular(out) && |out.columns| == 1 && out.height >= 2
    requires out.columns[0].cells[0] == out.columns[0].cells[1]
    ensures Row(out, 0) == Row(out, 1)
  {
    assert Row(out, 0) == [out.columns[0].cells[0]];
    assert Row(out, 1) == [out.columns[0].cells[1]];
  }

  /** Of two columns, only the first is kept when the second is too sparse
      and the first is complete. */
  lemma KeptFirstOfTwo<V>(cols: seq<Column<V>>, rows: nat)
    requires |cols| == 2 && NullCount(cols[0].cells) == 0 && Exceeds(NullCount(cols[1].cells), rows)
    ensures Kept(cols, rows) == [cols[0]]
  {
    assert cols[1..] == [cols[1]];
    assert [cols[1]][1..] == [];
  }

  /** A kept column whose cells `k` and `l` agree still has them agree after
      its imputer: a present value is kept or scaled the same way in both, and
      two missing cells take the column's one fill value. */
  lemma CellsAgreeAfterCleaning<V>(col: Column<V>, out: Column<V>, tk: Toolkit<V>, k: nat, l: nat)
    requires KeepsOrScales(col, out, tk) && FillsMissing(col, out, tk)
    requires k < |col.cells| && l < |col.cells| && col.cells[k] == col.cells[l]
    ensures out.cells[k] == out.cells[l]
  {
    if col.cells[k].None? {
      FillsMissingOneValue(col, out, tk);
    }
  }

  /** Rows `k` and `l` of the deduplicated frame that agree on every kept
      column come out equal, whatever they hold in the dropped columns. Since
      deduplication runs first, this is how the cleaned frame can repeat rows. */
  lemma AgreeOnKeptGivesEqualRows<V>(t: Frame<V>, tk: Toolkit<V>, k: nat, l: nat)
    requires WellFormed(t) && Clean(t, tk).Success?
    requires k < DropDuplicates(t).height && l < DropDuplicates(t).height
    requires var d := DropDuplicates(t);
      forall i :: 0 <= i < |d.columns| && !Exceeds(NullCount(d.columns[i].cells), d.height) ==>
        d.columns[i].cells[k] == d.columns[i].cells[l]
    ensures var out := Clean(t, tk).value.0;
      Rectangular(out) && k < out.height && l < out.height && Row(out, k) == Row(out, l)
  {
    var d := DropDuplicates(t);
    var kept := Kept(d.columns, d.height);
    var out := Clean(t, tk).value.0;
    CleanShape(t, tk);
    CleanPresentCells(t, tk);
    CleanFillsMissing(t, tk);
    forall j | 0 <= j < |kept| ensures out.columns[j].cells[k] == out.columns[j].cells[l] {
      var i :| 0 <= i < |d.columns| && d.columns[i] == kept[j];
      CellsAgreeAfterCleaning(kept[j], out.columns[j], tk, k, l);
    }
    assert Row(out, k) == Row(out, l) by {
      forall j | 0 <= j < |out.columns| ensures Row(out, k)[j] == Row(out, l)[j] {
      }
    }
  }

  /** A frame with rows whose columns are an object column and a column
      more than 30% missing has no kept numeric column, so it is cleaned
      successfully whatever its values. */
  lemma ObjectAndDroppedSucceeds<V>(t: Frame<V>, tk: Toolkit<V>)
    requires WellFormed(t) && RowsDistinct(t) && t.height > 0 && |t.columns| == 2
    requires t.columns[0].isObject && Exceeds(NullCount(t.columns[1].cells), t.height)
    ensures Clean(t, tk).Success?
  {
    assert KeptNumericFinite(t.columns, t.height, tk) by {
      forall i | 0 <= i < 2 && !t.columns[i].isObject ensures i == 1 {
      }
    }
    DropDuplicatesOfDistinct(t);
    CleanSucceeds(t, tk);
  }

  /** Two rows that differ only in a column that is then dropped come out
      equal: with distinct rows, a complete text column x whose rows 0 and 1
      agree, and a column y more than 30% missing, the cleaned rows 0 and 1
      are the same. */
  lemma DroppingCanRepeatRows<V>(t: Frame<V>, tk: Toolkit<V>)
    requires WellFormed(t) && RowsDistinct(t) && t.height >= 2 && |t.columns| == 2
    requires t.columns[0].isObject && NullCount(t.columns[0].cells) == 0
    requires t.columns[0].cells[0] == t.columns[0].cells[1]
    requires Exceeds(NullCount(t.columns[1].cells), t.height)
    ensures Clean(t, tk).Success?
    ensures var out := Clean(t, tk).value.0;
      Rectangular(out) && out.height == t.height && Row(out, 0) == Row(out, 1)
  {
    DropDuplicatesOfDistinct(t);
    KeptFirstOfTwo(t.columns, t.height);
    ObjectAndDroppedSucceeds(t, tk);
    CleanShape(t, tk);
    CleanPresentCells(t, tk);
    SingleColumnRows(Clean(t, tk).value.0);
  }

  /** Rows ("a", "p"), ("a", missing), ("b", "q") under text columns x and
      y, as `read_csv` gives them the `object` dtype. */
  function Repeating(): Frame<string>
  {
    Frame([Column("x", true, [Some("a"), Some("a"), Some("b")]),
           Column("y", true, [Some("p"), None, Some("q")])], 3)
  }

  /** Column x of `Repeating` is complete and column y is one third missing. */
  lemma RepeatingNullCounts()
    ensures NullCount(Repeating().columns[0].cells) == 0
    ensures NullCount(Repeating().columns[1].cells) == 1
  {
    var y: seq<Option<string>> := [Some("p"), None, Some("q")];
    assert y[1..] == [None, Some("q")];
    assert y[1..][1..] == [Some("q")];
    assert y[1..][1..][1..] == [];
  }

  /** `Repeating` meets every premise of `DroppingCanRepeatRows`. */
  lemma RepeatingMeetsPremises()
    ensures var t := Repeating();
      && WellFormed(t) && RowsDistinct(t) && t.height >= 2 && |t.columns| == 2
      && t.columns[0].isObject && NullCount(t.columns[0].cells) == 0
      && t.columns[0].cells[0] == t.columns[0].cells[1]
      && Exceeds(NullCount(t.columns[1].cells), t.height)
  {
    var t := Repeating();
    RepeatingNullCounts();
    assert Row(t, 0) == [Some("a"), Some("p")];
    assert Row(t, 1) == [Some("a"), None];
    assert Row(t, 2) == [Some("b"), Some("q")];
  }

  /** `Repeating` has three distinct rows, yet whatever the toolkit, its
      cleaned rows 0 and 1 are equal once y is dropped. */
  lemma RepeatingRepeatsAfterCleaning(tk: Toolkit<string>)
    ensures RowsDistinct(Repeating())
    ensures Clean(Repeating(), tk).Success?
    ensures var out := Clean(Repeating(), tk).value.0;
      Rectangular(out) && out.height == 3 && Row(out, 0) == Row(out, 1)
  {
    RepeatingMeetsPremises();
    DroppingCanRepeatRows(Repeating(), tk);
  }
}
